=== FILE: README.md ===
# Audio player screen: playback controller model

A Dafny model of the playback controller inside the single screen of the `music_player`
React Native app (`src/app/index.tsx`). The screen holds one `expo-av` sound reference, a
queue of tracks shown in a horizontal pager, and React state for loading, playing, mute,
position and duration. The model keeps only the logic:

- `TimeFormat` — `formatTime`, the `mm:ss` remaining-time label, with a reader for labels as
  its partner. The screen passes `duration - position`, a difference of two floating-point
  seconds values that each came from engine milliseconds divided by 1000. The model takes the
  exact difference in integer milliseconds instead (see "Left out"). On that input it uses
  JavaScript's flooring division and truncating `%` exactly, for negative inputs as well.
- `Engine` — the sound object reduced to a record (`loaded`, `playing`, `positionMs`,
  `durationMs`, `muted`, `looping`, plus an identity and its source URL) and the status
  snapshot it reports. A command sent to a released handle is rejected by the engine. The
  screen never handles that rejection, so it is modelled as "nothing changes".
- `Player` — the controller state and every handler as a pure function:
  - the skip buttons, restart, play/pause and mute;
  - the status callback, as a reducer from (UI state, report) to (UI state, seek command);
  - `loadAudio`, with release before acquire;
  - the pager's visibility handler, the mount effect and its cleanup.

  The invariant `Inv` says the engine holds open exactly the handle the reference holds.
- `Session` — any sequence of taps, reports, swipes and the unmount, with each handler run to
  completion before the next one starts. Under that ordering it proves that at most one
  handle is ever open and that nothing is open after unmount.

Behaviour of the screen's code that a reader might not expect, and which the model keeps:

- The remaining-time label truncates. 136.8 s left shows `02:16`, not `02:17`
  (`TimeFormat.FormatTimeExamples`, `Player.RemainingAfterReport`).
- A failed `createAsync` is an unhandled rejection. The spinner set by `loadAudio` stays on
  and the reference keeps the released handle; nothing clears the spinner until a later load
  succeeds. See `Player.LoadAudio`.
- A swipe does not start the new track. `onViewableItemsChanged` sends `playAsync` to the
  reference while it still holds the old handle, after that handle's release has already been
  issued. The new sound is created with `shouldPlay: false`. See `Player.OnViewableItemsChanged`.
- The screen's `isMuted` flag is not reset by a load, but every new sound starts unmuted. After
  muting and swiping, the screen shows "muted" while the new sound is unmuted, so it is heard
  as soon as it is played (`Player.MuteSurvivesLoad`).

## Model

| member | source | states |
|---|---|---|
| TimeFormat.TruncRem | src/app/index.tsx:185 | JavaScript `%`: the dividend is a whole multiple of m plus the remainder, and the remainder lies in [0, m) for a non-negative dividend and in (-m, 0] for a negative one |
| TimeFormat.Digits | src/app/index.tsx:186 | `String(n)` on a natural number is a non-empty run of decimal digits with no leading zero (only 0 itself starts with `0`), with at least two digits exactly from 10 and at least three exactly from 100 |
| TimeFormat.DigitsValue | src/app/index.tsx:186 | the digits of `String(n)` read back as n |
| TimeFormat.JsString | src/app/index.tsx:186 | `String(n)` on an integer is never empty, starts with `-` exactly when n is negative, and has no leading zero: only 0 starts with `0`, and a `-` is never followed by `0` |
| TimeFormat.JsStringValue | src/app/index.tsx:186 | `String(n)` reads back as n: the whole text for n >= 0, the text after the minus sign as -n for n < 0 |
| TimeFormat.Pad2 | src/app/index.tsx:186 | `padStart(2, "0")` keeps a string of two or more characters as it is, puts one `0` in front of a single character, and turns the empty string into `00` |
| TimeFormat.FloorSecondsSplit | src/app/index.tsx:184-185 | for non-negative input, flooring minutes and the seconds remainder from the real seconds equals splitting the floored whole seconds |
| TimeFormat.FormatTime | src/app/index.tsx:183-187 | for non-negative input the label is the floored whole seconds split into minutes and seconds-below-60, each padded to two |
| TimeFormat.LabelFields | src/app/index.tsx:186 | the seconds field is exactly two characters; the minutes field is at least two and is not cut (100+ minutes give 3+ digits); both fields read back as their numbers |
| TimeFormat.ParseLabel | src/app/index.tsx:186 | a label of minutes and a seconds field below 60 reads back as minutes times 60 plus seconds |
| TimeFormat.FormatTimeRoundTrip | src/app/index.tsx:183-187 | reading the label back gives exactly the floored whole seconds, so the label loses only the fraction |
| TimeFormat.FormatTimeSameLabel | src/app/index.tsx:183-187 | two non-negative times get the same label if and only if they have the same whole seconds |
| TimeFormat.FormatTimeExamples | src/app/index.tsx:183-187 | truncation, not rounding: 136 800 ms gives "02:16", 0 gives "00:00", 100 minutes gives "100:00" |
| TimeFormat.FormatTimeNegative | src/app/index.tsx:184-186 | a negative remaining time uses signed floor and remainder: -59.5 s gives "-1:-60" and -0.5 s gives "-1:-1" |
| Player.InvAtMostOneHandle | src/app/index.tsx:39 | under the invariant the engine holds at most one handle open, and that handle is the one the reference holds |
| Player.Initial | src/app/index.tsx:31-39 | the initial state holds the given queue at index 0 and a null reference, with no handle open, position and duration 0, not muted, not playing, no spinner and no waveform; it satisfies the invariant |
| Player.Rewind10s | src/app/index.tsx:146-153 | a loaded sound moves back by at most ten seconds and never below 0, by exactly ten unless it stops at 0; only its position changes; without a loaded handle nothing changes |
| Player.Forward10s | src/app/index.tsx:155-162 | a loaded sound ends at or before its duration, exactly ten seconds on unless it stops at the end, and never moves back when it was within the track; without a loaded handle nothing changes |
| Player.SkipRoundTrip | src/app/index.tsx:146-162 | rewind undoes a forward skip that did not reach the end; forward undoes a rewind that did not reach 0 |
| Player.Restart | src/app/index.tsx:164-169 | a loaded sound ends at position 0 and playing, whatever its prior state; otherwise nothing changes; the UI state is untouched |
| Player.RestartIdempotent | src/app/index.tsx:146-169 | restarting twice equals restarting once, and a skip just before a restart makes no difference |
| Player.TogglePlayPause | src/app/index.tsx:129-144 | with a loaded handle the engine's playing flag flips and the waveform then runs exactly when the sound plays; otherwise nothing changes |
| Player.TogglePlayPauseTwice | src/app/index.tsx:129-144 | two toggles restore the engine state; with no loaded handle two toggles change nothing |
| Player.ToggleMute | src/app/index.tsx:171-181 | with a loaded handle the screen's mute flag flips and the engine takes the new value; otherwise the flag keeps its prior value |
| Player.ToggleMuteTwice | src/app/index.tsx:171-181 | after a toggle on a loaded handle the engine and screen mute flags agree; two toggles restore the screen's flag |
| Player.OnStatus | src/app/index.tsx:109-127 | a not-loaded report changes nothing and sends no seek; a loaded report copies duration, position and playing and clears the spinner; a seek to 0 is sent, and playing and waveform are cleared, if and only if the report ends a non-looping track |
| Player.OnStatusIdempotent | src/app/index.tsx:109-126 | applying one report twice gives the same state and command as applying it once |
| Player.LatestReportWins | src/app/index.tsx:109-114 | after a loaded report, position, duration, playing and the spinner do not depend on any earlier report |
| Player.HandleStatus | src/app/index.tsx:109-127 | the screen state becomes what the reducer gives; a loaded report for the held loaded sound brings the sound's position, duration, playing and looping to the report's values, except that an end-of-track report on a non-looping sound leaves it at 0; an ending report always leaves the screen not playing with the waveform stopped; a not-loaded report, or one with no loaded handle held, leaves the sound as it was |
| Player.FinishThenTapReplays | src/app/index.tsx:118-139 | after a non-looping sound reports that it finished, a tap on play/pause starts it again from 0; the waveform runs while the play flag shown stays off until the next report |
| Player.RemainingLabel | src/app/index.tsx:273 | the label under the controls, `formatTime(duration - position)`; it carries no contract of its own, and its properties are stated by `Player.RemainingLabelReadsBack` and `Player.RemainingAfterReport` |
| Player.RemainingLabelReadsBack | src/app/index.tsx:272-274 | while the position is within the track, the label under the controls reads back as the whole seconds left |
| Player.RemainingAfterReport | src/app/index.tsx:272-274 | after a report of 136.8 s played of 273.6 s, the label under the controls reads "02:16" |
| Player.Release | src/app/index.tsx:97-99 | releasing drops the held handle from the engine; under the invariant the engine then holds nothing open |
| Player.Acquire | src/app/index.tsx:100-106 | `createAsync`, allowed only when the engine holds nothing open: a created sound has a fresh identity, the given URL and duration, is loaded, unmuted and paused at 0, and becomes the only open handle; a failed creation changes nothing; the screen state and queue are untouched |
| Player.LoadAudio | src/app/index.tsx:95-107 | shows the spinner; the old handle is released before the new one is opened, so afterwards the old handle is closed and the new, previously unopened handle is the only one open; the new sound has the given URL and duration and starts loaded, paused at 0; a failed creation leaves the spinner on, no handle open, and the reference holding the released old handle (or still null); the invariant and the queue are kept |
| Player.FirstReportClearsSpinner | src/app/index.tsx:95-114 | the first report of a freshly loaded sound takes the spinner down and shows it paused at 0 with its duration |
| Player.MuteSurvivesLoad | src/app/index.tsx:95-107 | muting and then loading another track leaves the screen showing "muted" while the new sound is not muted, so it is heard once played |
| Player.OnViewableItemsChanged | src/app/index.tsx:189-196 | with a visible card its index becomes current and its track is loaded; the new sound stays paused because the play goes to the released handle; an empty report changes nothing; the invariant is kept |
| Player.Teardown | src/app/index.tsx:203-211 | with a reference, its handle is released while the reference keeps it, and the waveform, position, duration and playing are reset; without one nothing changes; the queue and the next identity are kept; afterwards no handle is open |
| Player.Mount | src/app/index.tsx:198-201 | the mounted state holds the given queue and satisfies the invariant; a non-empty queue starts loading its first track at index 0, which is created paused; an empty queue loads nothing; a failed creation leaves a null reference and nothing open |
| Player.MountBuiltInQueue | src/app/index.tsx:20-37 | mounting with the built-in one-track list opens exactly one handle, for that track's URL, paused, at index 0, with the spinner on; its duration is whatever the engine finds, since the listed 273.6 s is never read |
| Session.Step | src/app/index.tsx:109-211 | every handler keeps the queue and the one-handle invariant |
| Session.Run | src/app/index.tsx:31-211 | any sequence of events keeps the queue, because the screen never replaces its track list, and keeps the invariant, so the engine never holds two handles open |
| Session.SessionHoldsOneHandle | src/app/index.tsx:95-107 | from mount on, with handlers run one at a time, at most one handle is open whatever the events |
| Session.UnmountReleasesAll | src/app/index.tsx:203-211 | after any session followed by the unmount, no handle is open |

## Left out

- Audio-session configuration (`Audio.setAudioModeAsync`): platform settings with no logic.
- Waveform animation: the random bar heights and durations and the `Animated` loops are
  cosmetic and random. Only whether the bars run is kept, as the `waveform` flag.
- Rendering, the `FlatList` wiring and the styles.
- The circular-progress and progress-animation fractions `position / duration`. These are
  floating point and give NaN when the duration is 0.
- Floating-point rounding in `formatTime`: the model uses exact integer milliseconds, which
  can differ from the screen by a second at a whole-second boundary. A duration of 2300 ms
  and a position of 300 ms give 2.3 - 0.3 = 1.9999999999999998 on the screen, so it shows
  `00:01`, while the model's `FormatTime(2000)` is `00:02`. A missing `durationMillis` (NaN)
  is not modelled.
- Asynchronous interleavings: handlers run one after another, in the order in which their
  engine commands are issued. Races between unawaited promises are not modelled, and neither
  is a status report overtaking a command.
- The double load at start-up: the mount effect (src/app/index.tsx:198-201) and the pager's
  first visibility callback (src/app/index.tsx:189-194) each start `loadAudio` without awaiting
  it. Both can reach `createAsync` before either assigns the reference, so the first sound
  created is never unloaded. The session model runs each handler to completion and so
  cannot show this leak.
- The effect's re-run when the index changes (cleanup, then a second load of the same track)
  is not chained to `Player.OnViewableItemsChanged`; it is an asynchronous race. The swipe's
  `loadAudio` and the effect's `loadAudio` can both reach `createAsync` before either assigns
  the reference, so one of the two new sounds is never unloaded, the same leak as the double
  load at start-up. Its pieces are modelled as `Player.Teardown` and `Player.LoadAudio`.
- The stale read of `isMuted` inside `toggleMute`: the model reads the current value.
- `console.error` logging. Caught failures and engine rejections leave the state unchanged.
- The engine's own behaviour beyond the record above. In particular, the engine is assumed to
  set a loaded sound's position exactly as asked, and to reject commands to a released handle.
  A loaded report is taken to describe the held handle's own state at that moment; reports
  from a released sound are not modelled.

=== FILE: engine.dfy ===
/**
  The `expo-av` sound object, abstracted to the record the screen observes through
  `getStatusAsync`. Each handle carries an identity so that the number of handles the engine
  holds open can be counted. A command sent to a handle that has been released is rejected by
  the engine; the screen never recovers from that rejection, so it leaves everything unchanged.
*/
module Engine {

  datatype Sound = Sound(
    id: nat,
    source: string,
    loaded: bool,
    playing: bool,
    positionMs: nat,
    durationMs: nat,
    muted: bool,
    looping: bool)

  /** A status snapshot as the engine reports it, either on request or through the callback. */
  datatype Status =
    | NotLoaded
    | Loaded(positionMs: nat, durationMs: nat, isPlaying: bool, didJustFinish: bool, isLooping: bool)

  /** The snapshot `getStatusAsync` returns for a handle. */
  function StatusOf(s: Sound): Status {
    if s.loaded then Loaded(s.positionMs, s.durationMs, s.playing, false, s.looping) else NotLoaded
  }

  /** `createAsync(source, { shouldPlay: false })`: a loaded handle, paused at 0, not muted, not looping. */
  function Create(id: nat, source: string, durationMs: nat): Sound {
    Sound(id, source, true, false, 0, durationMs, false, false)
  }

  /**
    A loaded report is the engine's own account of the handle: position, duration, playing
    and looping take the reported values. This is how a track reaching its end stops playing.
  */
  function Observe(s: Sound, st: Status): Sound
    requires st.Loaded?
  {
    s.(positionMs := st.positionMs, durationMs := st.durationMs, playing := st.isPlaying, looping := st.isLooping)
  }

  function SetPosition(s: Sound, ms: nat): Sound {
    if s.loaded then s.(positionMs := ms) else s
  }

  function Play(s: Sound): Sound {
    if s.loaded then s.(playing := true) else s
  }

  function Pause(s: Sound): Sound {
    if s.loaded then s.(playing := false) else s
  }

  function SetMuted(s: Sound, muted: bool): Sound {
    if s.loaded then s.(muted := muted) else s
  }

  /** `unloadAsync`: releases the handle; releasing twice is harmless. */
  function Unload(s: Sound): Sound {
    s.(loaded := false, playing := false)
  }
}

=== FILE: player.dfy ===
/**
  The playback controller of the audio player screen (src/app/index.tsx): the screen's React
  state, the one sound reference it holds, and its handlers as pure transitions.

  Times are integer milliseconds throughout; the screen keeps position and duration as
  `millis / 1000` seconds, which is the same quantity.
*/
module Player {
  import opened Wrappers
  import opened Engine
  import TimeFormat

  /** One card of the pager. The listed duration is advisory; the engine's report wins once loaded. */
  datatype Track = Track(title: string, usersCount: string, durationMs: nat, fileUrl: string)

  /** The screen's built-in queue: one 273.6-second track. */
  const AudioData: seq<Track> := [
    Track(
      "30 Mins Binaural Beats",
      "10K men taken action",
      273600,
      "https://mentoochallengeapp.blob.core.windows.net/app/assets/de8fcf9a-8ff0-4826-a8d2-14fbd6e4e90c.mp3")
  ]

  /** The screen's React state; `waveform` says whether the decorative bars are animating. */
  datatype Ui = Ui(
    currentIndex: nat,
    isPlaying: bool,
    durationMs: nat,
    positionMs: nat,
    loading: bool,
    isMuted: bool,
    waveform: bool)

  /**
    The whole controller: the queue, the UI state, the sound reference (`soundRef.current`,
    which keeps pointing at a handle after it has been released) and, on the engine's side,
    the set of handles it holds open plus the identity the next created handle will get.
  */
  datatype Controller = Controller(
    queue: seq<Track>,
    ui: Ui,
    sound: Option<Sound>,
    live: set<nat>,
    nextId: nat)

  /** The outcome of `createAsync`, which the model takes as a parameter. */
  datatype CreateOutcome = Created(durationMs: nat) | CreateFailed

  /** The handles the reference keeps open: its own, while loaded. */
  function Held(o: Option<Sound>): set<nat> {
    if o.Some? && o.value.loaded then {o.value.id} else {}
  }

  /** The reference holds a handle that reports `isLoaded`. */
  predicate HeldLoaded(c: Controller) {
    c.sound.Some? && c.sound.value.loaded
  }

  /**
    The controller's invariant: the engine holds open exactly the handle the reference holds
    (so never a second one), handle identities are fresh, and the current index is inside a
    non-empty queue.
  */
  predicate Inv(c: Controller) {
    && c.live == Held(c.sound)
    && (c.sound.Some? ==> c.sound.value.id < c.nextId)
    && (|c.queue| > 0 ==> c.ui.currentIndex < |c.queue|)
  }

  lemma InvAtMostOneHandle(c: Controller)
    requires Inv(c)
    ensures |c.live| <= 1
    ensures c.live != {} ==> HeldLoaded(c) && c.live == {c.sound.value.id}
  {
  }

  /**
    The state right after mounting, before any effect has run: the given queue at index 0, a
    null reference, nothing loaded, nothing muted, position and duration 0.
  */
  function Initial(queue: seq<Track>): (c: Controller)
    ensures Inv(c)
    ensures c.queue == queue && c.sound.None? && c.live == {}
    ensures c.ui.currentIndex == 0 && c.ui.positionMs == 0 && c.ui.durationMs == 0
    ensures !c.ui.isMuted && !c.ui.isPlaying && !c.ui.loading && !c.ui.waveform
  {
    Controller(queue, Ui(0, false, 0, 0, false, false, false), None, {}, 0)
  }

  // ---------------------------------------------------------------------------------------
  // Skip controls

  /** The ten-second step of both skip buttons. */
  const SkipMs: nat := 10000

  /**
    `rewind10s`: moves a loaded sound back ten seconds, stopping at 0. Without a loaded
    handle nothing changes.
  */
  function Rewind10s(c: Controller): (r: Controller)
    ensures !HeldLoaded(c) ==> r == c
    ensures HeldLoaded(c) ==>
      var p := c.sound.value.positionMs;
      && r.sound.Some?
      && r.sound.value == c.sound.value.(positionMs := r.sound.value.positionMs)
      && r.sound.value.positionMs <= p
      && p - r.sound.value.positionMs <= SkipMs
      && (r.sound.value.positionMs > 0 ==> p - r.sound.value.positionMs == SkipMs)
    ensures r.ui == c.ui && r.live == c.live && r.queue == c.queue && r.nextId == c.nextId
  {
    match c.sound
    case None => c
    case Some(s) =>
      if !s.loaded then c
      else
        var target := if s.positionMs - SkipMs > 0 then s.positionMs - SkipMs else 0;
        c.(sound := Some(SetPosition(s, target)))
  }

  /**
    `forward10s`: moves a loaded sound ahead ten seconds, stopping at its duration. Without a
    loaded handle nothing changes.
  */
  function Forward10s(c: Controller): (r: Controller)
    ensures !HeldLoaded(c) ==> r == c
    ensures HeldLoaded(c) ==>
      var p, d := c.sound.value.positionMs, c.sound.value.durationMs;
      && r.sound.Some?
      && r.sound.value == c.sound.value.(positionMs := r.sound.value.positionMs)
      && r.sound.value.positionMs <= d
      && (r.sound.value.positionMs < d ==> r.sound.value.positionMs == p + SkipMs)
      && (p <= d ==> p <= r.sound.value.positionMs <= p + SkipMs)
    ensures r.ui == c.ui && r.live == c.live && r.queue == c.queue && r.nextId == c.nextId
  {
    match c.sound
    case None => c
    case Some(s) =>
      if !s.loaded then c
      else
        var target := if s.positionMs + SkipMs < s.durationMs then s.positionMs + SkipMs else s.durationMs;
        c.(sound := Some(SetPosition(s, target)))
  }

  /** Rewinding undoes a forward skip that did not hit the end, and forward undoes a rewind that did not hit 0. */
  lemma SkipRoundTrip(c: Controller)
    requires HeldLoaded(c)
    ensures c.sound.value.positionMs + SkipMs <= c.sound.value.durationMs ==> Rewind10s(Forward10s(c)) == c
    ensures SkipMs <= c.sound.value.positionMs <= c.sound.value.durationMs ==> Forward10s(Rewind10s(c)) == c
  {
  }

  /**
    `restart`: a loaded sound goes back to 0 and plays, whatever it was doing. With no
    reference nothing changes; a released handle rejects the seek, so nothing changes either.
    The UI state is left to the next status report, and the waveform is not started.
  */
  function Restart(c: Controller): (r: Controller)
    ensures HeldLoaded(c) ==>
      && r.sound.Some? && r.sound.value.positionMs == 0 && r.sound.value.playing
      && r.sound.value == c.sound.value.(positionMs := 0, playing := true)
    ensures !HeldLoaded(c) ==> r == c
    ensures r.ui == c.ui && r.live == c.live && r.queue == c.queue && r.nextId == c.nextId
  {
    match c.sound
    case None => c
    case Some(s) =>
      if !s.loaded then c else c.(sound := Some(Play(SetPosition(s, 0))))
  }

  /** Restarting twice is the same as restarting once, and a restart after any skip lands at 0 playing. */
  lemma RestartIdempotent(c: Controller)
    ensures Restart(Restart(c)) == Restart(c)
    ensures Restart(Rewind10s(c)) == Restart(c)
    ensures Restart(Forward10s(c)) == Restart(c)
  {
  }

  // ---------------------------------------------------------------------------------------
  // Play/pause and mute

  /**
    `togglePlayPause`: with a handle reporting `isLoaded`, pauses it if playing (stopping the
    waveform) and plays it otherwise (starting the waveform); otherwise nothing changes.
  */
  function TogglePlayPause(c: Controller): (r: Controller)
    ensures !HeldLoaded(c) ==> r == c
    ensures HeldLoaded(c) ==>
      && r.sound.Some?
      && r.sound.value == c.sound.value.(playing := !c.sound.value.playing)
      && r.ui == c.ui.(waveform := r.sound.value.playing)
    ensures r.live == c.live && r.queue == c.queue && r.nextId == c.nextId
  {
    match c.sound
    case None => c
    case Some(s) =>
      if !s.loaded then c
      else if s.playing then c.(sound := Some(Pause(s)), ui := c.ui.(waveform := false))
      else c.(sound := Some(Play(s)), ui := c.ui.(waveform := true))
  }

  /** Two toggles restore the engine's playing flag; the waveform then runs exactly when it plays. */
  lemma TogglePlayPauseTwice(c: Controller)
    ensures HeldLoaded(c) ==>
      && TogglePlayPause(TogglePlayPause(c)).sound == c.sound
      && TogglePlayPause(TogglePlayPause(c)).ui == c.ui.(waveform := c.sound.value.playing)
    ensures !HeldLoaded(c) ==> TogglePlayPause(TogglePlayPause(c)) == c
  {
  }

  /**
    `toggleMute`: with a handle reporting `isLoaded`, tells it to take the opposite of the
    screen's mute flag and flips that flag; otherwise the flag keeps its prior value.
  */
  function ToggleMute(c: Controller): (r: Controller)
    ensures !HeldLoaded(c) ==> r == c
    ensures HeldLoaded(c) ==>
      && r.ui == c.ui.(isMuted := !c.ui.isMuted)
      && r.sound.Some?
      && r.sound.value == c.sound.value.(muted := r.ui.isMuted)
    ensures r.live == c.live && r.queue == c.queue && r.nextId == c.nextId
  {
    match c.sound
    case None => c
    case Some(s) =>
      if !s.loaded then c
      else c.(sound := Some(SetMuted(s, !c.ui.isMuted)), ui := c.ui.(isMuted := !c.ui.isMuted))
  }

  /** The engine's mute flag agrees with the screen's. */
  predicate MuteAgrees(c: Controller) {
    c.sound.Some? ==> c.sound.value.muted == c.ui.isMuted
  }

  /** After a toggle on a loaded handle the two flags agree; two toggles restore the screen's flag. */
  lemma ToggleMuteTwice(c: Controller)
    ensures HeldLoaded(c) ==> MuteAgrees(ToggleMute(c))
    ensures HeldLoaded(c) ==> MuteAgrees(ToggleMute(ToggleMute(c)))
    ensures ToggleMute(ToggleMute(c)).ui == c.ui
  {
  }

  // ---------------------------------------------------------------------------------------
  // Status reports

  /** A report of natural end-of-track on a sound that does not loop. */
  predicate Ends(st: Status)
    requires st.Loaded?
  {
    st.didJustFinish && !st.isLooping
  }

  /**
    `onPlaybackStatusUpdate` as a reducer: the next UI state and the seek, if any, it sends
    to the held handle. A report that is not loaded changes nothing. A loaded report is
    copied into duration, position and playing, and clears the spinner; one that ends a
    non-looping track also stops playback display and the waveform and seeks back to 0.
  */
  function OnStatus(ui: Ui, st: Status): (r: (Ui, Option<nat>))
    ensures st.NotLoaded? ==> r == (ui, None)
    ensures st.Loaded? ==>
      && r.0.durationMs == st.durationMs
      && r.0.positionMs == st.positionMs
      && !r.0.loading
      && (r.0.isPlaying <==> st.isPlaying && !Ends(st))
      && (r.0.waveform <==> ui.waveform && !Ends(st))
      && r.0.currentIndex == ui.currentIndex
      && r.0.isMuted == ui.isMuted
      && (r.1.Some? <==> Ends(st))
    ensures r.1.Some? ==> r.1.value == 0
  {
    match st
    case NotLoaded => (ui, None)
    case Loaded(pos, dur, playing, finished, looping) =>
      var copied := ui.(durationMs := dur, positionMs := pos, isPlaying := playing, loading := false);
      if finished && !looping then (copied.(isPlaying := false, waveform := false), Some(0))
      else (copied, None)
  }

  /** Applying the same report twice is the same as applying it once. */
  lemma OnStatusIdempotent(ui: Ui, st: Status)
    ensures OnStatus(OnStatus(ui, st).0, st) == OnStatus(ui, st)
  {
  }

  /** The latest loaded report alone decides position, duration, playing and the spinner. */
  lemma LatestReportWins(ui: Ui, a: Status, b: Status)
    requires b.Loaded?
    ensures var twice, once := OnStatus(OnStatus(ui, a).0, b).0, OnStatus(ui, b).0;
      && twice.durationMs == once.durationMs
      && twice.positionMs == once.positionMs
      && twice.isPlaying == once.isPlaying
      && twice.loading == once.loading
  {
  }

  /**
    The status callback on the whole controller. A loaded report comes from the held handle
    (the only one the engine keeps open), so the handle's record takes the reported values;
    then the reducer's UI state is shown and its seek goes to the handle.
  */
  function HandleStatus(c: Controller, st: Status): (r: Controller)
    ensures r.ui == OnStatus(c.ui, st).0
    ensures st.Loaded? && HeldLoaded(c) ==>
      && r.sound.Some?
      && r.sound.value == c.sound.value.(
        positionMs := if Ends(st) then 0 else st.positionMs,
        durationMs := st.durationMs,
        playing := st.isPlaying,
        looping := st.isLooping)
    ensures !(st.Loaded? && HeldLoaded(c)) ==> r.sound == c.sound
    ensures st.Loaded? && Ends(st) ==> !r.ui.isPlaying && !r.ui.waveform
    ensures st.NotLoaded? ==> r == c
    ensures r.live == c.live && r.queue == c.queue && r.nextId == c.nextId
  {
    var (ui', seek) := OnStatus(c.ui, st);
    var observed := if st.Loaded? && HeldLoaded(c) then Some(Observe(c.sound.value, st)) else c.sound;
    match (seek, observed)
    case (Some(ms), Some(s)) => c.(ui := ui', sound := Some(SetPosition(s, ms)))
    case _ => c.(ui := ui', sound := observed)
  }

  /**
    When a non-looping track ends, the engine reports it stopped and the callback rewinds it;
    the next tap on play/pause then plays it from 0 and starts the waveform.
  */
  lemma FinishThenTapReplays(c: Controller)
    requires HeldLoaded(c)
    ensures var d := c.sound.value.durationMs;
      var r := TogglePlayPause(HandleStatus(c, Loaded(d, d, false, true, false)));
      && r.sound.Some? && r.sound.value.playing && r.sound.value.positionMs == 0
      && r.ui.waveform && !r.ui.isPlaying
  {
  }

  /** The remaining-time label under the controls, `formatTime(duration - position)`. */
  function RemainingLabel(ui: Ui): string
  {
    TimeFormat.FormatTime(ui.durationMs - ui.positionMs)
  }

  /** While the position is within the track, the label reads back as the whole seconds left. */
  lemma RemainingLabelReadsBack(ui: Ui)
    ensures ui.positionMs <= ui.durationMs ==>
      TimeFormat.ParseTime(RemainingLabel(ui)) == Some((ui.durationMs - ui.positionMs) / 1000)
  {
    if ui.positionMs <= ui.durationMs {
      TimeFormat.FormattedReadsBack(RemainingLabel(ui), ui.durationMs - ui.positionMs);
    }
  }

  /**
    A report of 136.8 s played of a 273.6 s track leaves 136.8 s, which the label truncates
    to 02:16.
  */
  lemma RemainingAfterReport(ui: Ui)
    ensures RemainingLabel(OnStatus(ui, Loaded(136800, 273600, true, false, false)).0) == "02:16"
  {
    TimeFormat.FormatTimeExamples();
  }

  // ---------------------------------------------------------------------------------------
  // Loading

  /** Releases the handle the reference holds, if any; the reference itself stays. */
  function Release(c: Controller): (r: Controller)
    ensures Inv(c) ==> r.live == {} && Inv(r)
    ensures c.sound.Some? ==> r.live == c.live - {c.sound.value.id} && r.sound == Some(Unload(c.sound.value))
    ensures c.sound.None? ==> r == c
    ensures r.ui == c.ui && r.queue == c.queue && r.nextId == c.nextId
  {
    match c.sound
    case None => c
    case Some(s) => c.(sound := Some(Unload(s)), live := c.live - {s.id})
  }

  /**
    `createAsync` and the assignment to the reference: the new handle is opened only when the
    engine holds nothing open, and it starts loaded, paused at 0. A failed creation leaves the
    reference as it was.
  */
  function Acquire(c: Controller, url: string, outcome: CreateOutcome): (r: Controller)
    requires c.live == {}
    ensures outcome.CreateFailed? ==> r == c
    ensures outcome.Created? ==>
      && HeldLoaded(r)
      && r.live == {r.sound.value.id}
      && r.sound.value.id == c.nextId < r.nextId
      && r.sound.value.source == url
      && !r.sound.value.playing && r.sound.value.positionMs == 0
      && r.sound.value.durationMs == outcome.durationMs
      && !r.sound.value.muted
    ensures r.ui == c.ui && r.queue == c.queue
  {
    match outcome
    case CreateFailed => c
    case Created(dur) =>
      c.(sound := Some(Create(c.nextId, url, dur)), live := c.live + {c.nextId}, nextId := c.nextId + 1)
  }

  /**
    `loadAudio(url)`: shows the spinner, releases the held handle, and only then creates the
    new one, paused at 0. A failed creation leaves the spinner showing and the old, released
    handle in the reference.
  */
  function LoadAudio(c: Controller, url: string, outcome: CreateOutcome): (r: Controller)
    requires Inv(c)
    ensures r.ui == c.ui.(loading := true)
    ensures Inv(r)
    ensures c.sound.Some? ==> c.sound.value.id !in r.live
    ensures outcome.Created? ==>
      && r.sound.Some?
      && r.sound.value.source == url
      && r.sound.value.loaded && !r.sound.value.playing && r.sound.value.positionMs == 0
      && r.sound.value.durationMs == outcome.durationMs
      && r.live == {r.sound.value.id} && r.sound.value.id !in c.live
    ensures outcome.CreateFailed? ==> r.live == {} && !HeldLoaded(r)
    ensures outcome.CreateFailed? ==>
      r.sound == if c.sound.Some? then Some(Unload(c.sound.value)) else None
    ensures r.queue == c.queue
  {
    Acquire(Release(c.(ui := c.ui.(loading := true))), url, outcome)
  }

  /** The engine's first report on a freshly created handle takes the spinner down. */
  lemma FirstReportClearsSpinner(c: Controller, url: string, dur: nat)
    requires Inv(c)
    ensures var r := LoadAudio(c, url, Created(dur));
      var after := HandleStatus(r, StatusOf(r.sound.value));
      && !after.ui.loading && !after.ui.isPlaying && after.ui.durationMs == dur && after.ui.positionMs == 0
  {
  }

  /**
    The screen's mute flag survives a load, while the new handle starts unmuted: after muting
    and loading another track, the screen shows muted while the new sound is unmuted, so it
    is heard as soon as it is played.
  */
  lemma MuteSurvivesLoad(c: Controller, url: string, dur: nat)
    requires Inv(c) && HeldLoaded(c) && !c.ui.isMuted
    ensures var r := LoadAudio(ToggleMute(c), url, Created(dur));
      r.ui.isMuted && !r.sound.value.muted && !MuteAgrees(r)
  {
  }

  /**
    `onViewableItemsChanged`, in the order the screen issues its commands: it sets the index,
    `loadAudio` shows the spinner and sends the release, the `playAsync` reaches the reference
    while it still holds the released handle (which rejects it), and then the new handle is
    created paused. So the newly visible track does not start by itself.
  */
  function OnViewableItemsChanged(c: Controller, viewable: seq<nat>, outcome: CreateOutcome): (r: Controller)
    requires Inv(c)
    requires |viewable| > 0 ==> viewable[0] < |c.queue|
    ensures |viewable| == 0 ==> r == c
    ensures |viewable| > 0 ==>
      && r == LoadAudio(c.(ui := c.ui.(currentIndex := viewable[0])), c.queue[viewable[0]].fileUrl, outcome)
      && r.ui.currentIndex == viewable[0]
    ensures |viewable| > 0 && outcome.Created? ==>
      r.sound.value.source == c.queue[viewable[0]].fileUrl && !r.sound.value.playing
    ensures Inv(r)
  {
    if |viewable| == 0 then c
    else
      var i := viewable[0];
      var shown := c.(ui := c.ui.(currentIndex := i, loading := true));
      var released := Release(shown);
      var played := match released.sound
        case None => released
        case Some(s) => released.(sound := Some(Play(s)));
      Acquire(played, c.queue[i].fileUrl, outcome)
  }

  /**
    The effect's cleanup (on unmount or before the effect re-runs): with a reference, release
    its handle, stop the waveform and zero position, duration and playing; without one,
    nothing changes.
  */
  function Teardown(c: Controller): (r: Controller)
    ensures c.sound.None? ==> r == c
    ensures c.sound.Some? ==>
      && r.sound == Some(Unload(c.sound.value))
      && r.live == c.live - {c.sound.value.id}
      && !HeldLoaded(r)
      && r.ui == c.ui.(waveform := false, positionMs := 0, durationMs := 0, isPlaying := false)
    ensures Inv(c) ==> Inv(r) && r.live == {}
    ensures r.queue == c.queue && r.nextId == c.nextId
  {
    match c.sound
    case None => c
    case Some(_) =>
      var released := Release(c);
      released.(ui := c.ui.(waveform := false, positionMs := 0, durationMs := 0, isPlaying := false))
  }

  /** Mounting: the initial state, then the effect loads the first track when the queue is non-empty. */
  function Mount(queue: seq<Track>, outcome: CreateOutcome): (r: Controller)
    ensures Inv(r) && r.queue == queue
    ensures |queue| == 0 ==> r == Initial(queue)
    ensures |queue| > 0 ==> r.ui.loading && r.ui.currentIndex == 0
    ensures |queue| > 0 && outcome.Created? ==>
      HeldLoaded(r) && r.sound.value.source == queue[0].fileUrl && !r.sound.value.playing
    ensures outcome.CreateFailed? ==> r.sound.None? && r.live == {}
  {
    if |queue| > 0 then LoadAudio(Initial(queue), queue[0].fileUrl, outcome) else Initial(queue)
  }

  /**
    Mounting the screen's own queue loads its one track, paused. The track's listed duration
    is never passed on: the sound's duration is the one the engine finds at creation.
  */
  lemma MountBuiltInQueue(dur: nat)
    ensures var r := Mount(AudioData, Created(dur));
      && HeldLoaded(r) && r.live == {r.sound.value.id}
      && r.sound.value.source == AudioData[0].fileUrl
      && r.sound.value.durationMs == dur
      && !r.sound.value.playing && r.ui.loading && r.ui.currentIndex == 0
  {
  }
}

=== FILE: session.dfy ===
/**
  A session on the screen as a sequence of events, handled one after another: taps on the
  controls, engine status reports, swipes in the pager and the unmount. Whatever the order,
  the engine never holds two handles open at once.
*/
module Session {
  import opened Engine
  import opened Player

  datatype Event =
    | RewindTap
    | ForwardTap
    | RestartTap
    | PlayPauseTap
    | MuteTap
    | Report(status: Status)
    | Swipe(viewable: seq<nat>, outcome: CreateOutcome)
    | Unmount

  /** The pager only reports indices of cards it shows. */
  predicate Fits(queue: seq<Track>, e: Event) {
    e.Swipe? && |e.viewable| > 0 ==> e.viewable[0] < |queue|
  }

  predicate AllFit(queue: seq<Track>, es: seq<Event>) {
    forall i :: 0 <= i < |es| ==> Fits(queue, es[i])
  }

  /** One event, dispatched to its handler; every handler keeps the controller's invariant. */
  function Step(c: Controller, e: Event): (r: Controller)
    requires Inv(c) && Fits(c.queue, e)
    ensures r.queue == c.queue
    ensures Inv(r)
  {
    match e
    case RewindTap => Rewind10s(c)
    case ForwardTap => Forward10s(c)
    case RestartTap => Restart(c)
    case PlayPauseTap => TogglePlayPause(c)
    case MuteTap => ToggleMute(c)
    case Report(st) => HandleStatus(c, st)
    case Swipe(viewable, outcome) => OnViewableItemsChanged(c, viewable, outcome)
    case Unmount => Teardown(c)
  }

  lemma AllFitTail(queue: seq<Track>, es: seq<Event>)
    requires |es| > 0 && AllFit(queue, es)
    ensures AllFit(queue, es[1..])
  {
    forall i | 0 <= i < |es| - 1
      ensures Fits(queue, es[1..][i])
    {
      assert es[1..][i] == es[i + 1];
    }
  }

  /**
    The events handled in order, each after the previous one has finished. No handler changes
    the queue, so every event still fits, and every handler keeps the invariant, so the engine
    never holds two handles open.
  */
  function Run(c: Controller, es: seq<Event>): (r: Controller)
    requires Inv(c) && AllFit(c.queue, es)
    ensures r.queue == c.queue
    ensures Inv(r) && |r.live| <= 1
    decreases |es|
  {
    if |es| == 0 then
      InvAtMostOneHandle(c);
      c
    else
      var next := Step(c, es[0]);
      AllFitTail(c.queue, es);
      Run(next, es[1..])
  }

  /** From mount onwards, with the events handled one at a time, at most one handle is open. */
  lemma SessionHoldsOneHandle(queue: seq<Track>, outcome: CreateOutcome, es: seq<Event>)
    requires AllFit(queue, es)
    ensures |Run(Mount(queue, outcome), es).live| <= 1
  {
  }

  /** After the unmount the engine holds nothing open. */
  lemma UnmountReleasesAll(queue: seq<Track>, outcome: CreateOutcome, es: seq<Event>)
    requires AllFit(queue, es)
    ensures Run(Mount(queue, outcome), es + [Unmount]).live == {}
  {
    RunSnoc(Mount(queue, outcome), es, Unmount);
  }

  lemma {:induction false} RunSnoc(c: Controller, es: seq<Event>, e: Event)
    requires Inv(c) && AllFit(c.queue, es) && Fits(c.queue, e)
    ensures AllFit(c.queue, es + [e])
    ensures Run(c, es + [e]) == Step(Run(c, es), e)
    decreases |es|
  {
    if |es| > 0 {
      var next := Step(c, es[0]);
      assert (es + [e])[1..] == es[1..] + [e];
      AllFitTail(c.queue, es);
      RunSnoc(next, es[1..], e);
    }
  }
}

=== FILE: time_format.dfy ===
/**
  The `mm:ss` label under the play controls (`formatTime` in src/app/index.tsx).

  The screen calls `formatTime(duration - position)`, where both values are engine
  milliseconds divided by 1000. The model takes the exact difference as an integer number of
  milliseconds, so it does not reproduce the rounding of the floating-point subtraction.
  `Math.floor` becomes Dafny's `/` (which floors for a positive divisor) and JavaScript's
  `%`, which keeps the sign of the dividend, becomes `TruncRem`.
*/
module TimeFormat {
  import opened Wrappers

  predicate IsDigit(c: char) {
    '0' <= c <= '9'
  }

  function DigitChar(d: nat): (c: char)
    requires d < 10
    ensures IsDigit(c)
  {
    (d + '0' as int) as char
  }

  function DigitValue(c: char): nat
    requires IsDigit(c)
  {
    c as int - '0' as int
  }

  lemma DigitRoundTrip(d: nat)
    requires d < 10
    ensures DigitValue(DigitChar(d)) == d
  {
  }

  /** `String(n)` for a natural number: decimal digits without leading zeros. */
  function Digits(n: nat): (s: string)
    ensures |s| >= 1
    ensures AllDigits(s)
    ensures n >= 10 <==> |s| >= 2
    ensures n >= 100 <==> |s| >= 3
    ensures s[0] == '0' ==> n == 0
  {
    if n < 10 then [DigitChar(n)] else Digits(n / 10) + [DigitChar(n % 10)]
  }

  /** `String(i)` for any integer: a minus sign in front of the digits of a negative value. */
  function JsString(i: int): (s: string)
    ensures |s| >= 1
    ensures i < 0 <==> s[0] == '-'
    ensures s[0] == '0' ==> i == 0
    ensures i < 0 ==> |s| >= 2 && s[1] != '0'
  {
    if i < 0 then "-" + Digits(-i) else Digits(i)
  }

  /** `String(i)` reads back as `i`: the digits after an optional minus sign are those of |i|. */
  lemma JsStringValue(i: int)
    ensures i >= 0 ==> ParseNat(JsString(i)) == Some(i)
    ensures i < 0 ==> ParseNat(JsString(i)[1..]) == Some(-i)
  {
    if i < 0 {
      DigitsValue(-i);
      assert JsString(i)[1..] == Digits(-i);
    } else {
      DigitsValue(i);
    }
  }

  /** `s.padStart(2, "0")`: zeros in front up to length 2; a longer string is kept whole. */
  function Pad2(s: string): (p: string)
    ensures |p| == if |s| >= 2 then |s| else 2
    ensures |s| >= 2 ==> p == s
    ensures |s| == 1 ==> p == ['0'] + s
    ensures |s| == 0 ==> p == "00"
  {
    if |s| == 0 then "00" else if |s| == 1 then "0" + s else s
  }

  /** JavaScript's `a % m` for a positive modulus: the remainder takes the sign of `a`. */
  function TruncRem(a: int, m: int): (r: int)
    requires m > 0
    ensures a >= 0 ==> 0 <= r < m
    ensures a < 0 ==> -m < r <= 0
    ensures exists q :: a == q * m + r
  {
    if a >= 0 then
      assert a == (a / m) * m + a % m;
      a % m
    else
      assert -a == (-a / m) * m + (-a) % m;
      assert a == (-(-a / m)) * m + -((-a) % m);
      -((-a) % m)
  }

  /** The label for a minutes count and a seconds field, each rendered and padded to two. */
  function Label(mins: int, secs: int): string {
    Pad2(JsString(mins)) + ":" + Pad2(JsString(secs))
  }

  /**
    `formatTime(ms / 1000)`: minutes `Math.floor(seconds / 60)` and seconds
    `Math.floor(seconds % 60)`; for a non-negative input these are the whole seconds
    split into minutes and a remainder.
  */
  function FormatTime(ms: int): (r: string)
    ensures ms >= 0 ==> r == Label(ms / 1000 / 60, ms / 1000 % 60)
  {
    FloorSecondsSplit(ms);
    Label(ms / 60000, TruncRem(ms, 60000) / 1000)
  }

  /** Dividing by 1000 and then by 60 floors the same as dividing by 60000 once. */
  lemma FloorSecondsSplit(ms: int)
    ensures ms >= 0 ==> ms / 60000 == ms / 1000 / 60
    ensures ms >= 0 ==> TruncRem(ms, 60000) / 1000 == ms / 1000 % 60
  {
    if ms >= 0 {
      var s, t := ms / 1000, ms % 1000;
      var q, u := s / 60, s % 60;
      assert ms == 60000 * q + (1000 * u + t);
      assert ms / 60000 == q;
      assert ms % 60000 == 1000 * u + t;
    }
  }

  predicate AllDigits(s: string) {
    forall i :: 0 <= i < |s| ==> IsDigit(s[i])
  }

  /** The value of a run of decimal digits, leading zeros allowed. */
  function DecimalValue(s: string): nat
    requires AllDigits(s)
  {
    if |s| == 0 then 0 else DecimalValue(s[..|s| - 1]) * 10 + DigitValue(s[|s| - 1])
  }

  /** A decimal reader: `None` for an empty string or one holding anything but digits. */
  function ParseNat(s: string): (r: Option<nat>)
    ensures r.Some? <==> |s| >= 1 && AllDigits(s)
  {
    if |s| >= 1 && AllDigits(s) then Some(DecimalValue(s)) else None
  }

  /** Reads an `m…m:ss` label back into whole seconds. */
  function ParseTime(t: string): (r: Option<nat>)
  {
    if |t| < 5 || t[|t| - 3] != ':' then None
    else match (ParseNat(t[..|t| - 3]), ParseNat(t[|t| - 2..]))
      case (Some(m), Some(sec)) => if sec < 60 then Some(m * 60 + sec) else None
      case _ => None
  }

  lemma {:induction false} DigitsValue(n: nat)
    ensures DecimalValue(Digits(n)) == n
  {
    var s := Digits(n);
    if n >= 10 {
      assert s[..|s| - 1] == Digits(n / 10);
      assert s[|s| - 1] == DigitChar(n % 10);
      DigitsValue(n / 10);
      DigitRoundTrip(n % 10);
    } else {
      assert s[..0] == [];
      DigitRoundTrip(n);
    }
  }

  /** A two-character pad of zeros does not change the value read back. */
  lemma {:induction false} ParsePaddedDigits(n: nat)
    ensures ParseNat(Pad2(Digits(n))) == Some(n)
  {
    var s, p := Digits(n), Pad2(Digits(n));
    DigitsValue(n);
    if |s| == 1 {
      assert p == "0" + s;
      assert p[..1] == "0";
      assert p[..1][..0] == [];
      assert DecimalValue(p[..1]) == 0;
    }
  }

  /**
    The label of a minutes count and a seconds field below 60: the seconds field is always two
    characters and the minutes field is padded to two but never cut, so 100 minutes and more
    show in full; both fields read back as the numbers they came from.
  */
  lemma LabelFields(mins: nat, secs: nat)
    requires secs < 60
    ensures var r := Label(mins, secs);
      && |r| >= 5
      && r[|r| - 3] == ':'
      && ParseNat(r[..|r| - 3]) == Some(mins)
      && ParseNat(r[|r| - 2..]) == Some(secs)
      && (mins >= 100 ==> |r| >= 6)
  {
    var m, t := Pad2(Digits(mins)), Pad2(Digits(secs));
    assert Label(mins, secs) == m + ":" + t;
    SplitAtColon(m, t);
    ParsePaddedDigits(mins);
    ParsePaddedDigits(secs);
  }

  lemma SplitAtColon(m: string, t: string)
    requires |t| == 2
    ensures var r := m + ":" + t;
      r[|r| - 3] == ':' && r[..|r| - 3] == m && r[|r| - 2..] == t
  {
  }

  /** A label reads back as its minutes times 60 plus its seconds field. */
  lemma ParseLabel(mins: nat, secs: nat)
    requires secs < 60
    ensures ParseTime(Label(mins, secs)) == Some(mins * 60 + secs)
  {
    LabelFields(mins, secs);
  }

  /** Reading the label back gives exactly the floored seconds: the label loses only the fraction. */
  lemma FormatTimeRoundTrip(ms: int)
    requires ms >= 0
    ensures ParseTime(FormatTime(ms)) == Some(ms / 1000)
  {
    var s: nat := ms / 1000;
    FormatTimeIs(ms, s / 60, s % 60);
    ParseSplitSeconds(s);
    ParseSameText(FormatTime(ms), Label(s / 60, s % 60), s);
  }

  lemma ParseSplitSeconds(s: nat)
    ensures ParseTime(Label(s / 60, s % 60)) == Some(s)
  {
    ParseLabel(s / 60, s % 60);
  }

  /** The round trip, stated for any text known to be a formatted time. */
  lemma FormattedReadsBack(text: string, ms: int)
    requires ms >= 0 && text == FormatTime(ms)
    ensures ParseTime(text) == Some(ms / 1000)
  {
    FormatTimeRoundTrip(ms);
  }

  /** Proof step: the reader gives equal results on equal texts. */
  lemma ParseSameText(x: string, y: string, n: nat)
    requires x == y && ParseTime(y) == Some(n)
    ensures ParseTime(x) == Some(n)
  {
  }

  /** Two non-negative times share a label exactly when they agree on whole seconds. */
  lemma FormatTimeSameLabel(a: int, b: int)
    requires a >= 0 && b >= 0
    ensures FormatTime(a) == FormatTime(b) <==> a / 1000 == b / 1000
  {
    FormatTimeRoundTrip(a);
    FormatTimeRoundTrip(b);
  }

  /** Proof step: the label of a time, once its minutes and seconds fields are known. */
  lemma FormatTimeIs(ms: int, mins: int, secs: int)
    requires ms >= 0 && ms / 1000 / 60 == mins && ms / 1000 % 60 == secs
    ensures FormatTime(ms) == Label(mins, secs)
  {
  }

  /** Proof step: a label whose minutes and seconds fields are known to render as `m` and `t`. */
  lemma FormatTimeText(ms: int, mins: int, secs: int, m: string, t: string)
    requires FormatTime(ms) == Label(mins, secs)
    requires Pad2(JsString(mins)) == m && Pad2(JsString(secs)) == t
    ensures FormatTime(ms) == m + ":" + t
  {
  }

  /** Truncation, not rounding: 136.8 s remaining shows as 02:16, and nothing left shows 00:00. */
  lemma FormatTimeExamples()
    ensures FormatTime(136800) == "02:16"
    ensures FormatTime(0) == "00:00"
    ensures FormatTime(6000000) == "100:00"
  {
    LabelTwoSixteen();
    LabelZero();
    LabelHundredMinutes();
  }

  /** Proof step: the label for no time left. */
  lemma LabelZero()
    ensures FormatTime(0) == "00:00"
  {
    FormatTimeIs(0, 0, 0);
    assert JsString(0) == "0";
    FormatTimeText(0, 0, 0, "00", "00");
  }

  /** Proof step: the label for 136.8 s left. */
  lemma LabelTwoSixteen()
    ensures FormatTime(136800) == "02:16"
  {
    FormatTimeIs(136800, 2, 16);
    assert JsString(2) == "2";
    assert JsString(16) == "16" by { assert Digits(16) == Digits(1) + "6"; }
    FormatTimeText(136800, 2, 16, "02", "16");
  }

  /** Proof step: the label for 100 minutes left. */
  lemma LabelHundredMinutes()
    ensures FormatTime(6000000) == "100:00"
  {
    FormatTimeIs(6000000, 100, 0);
    assert JsString(100) == "100" by {
      assert Digits(10) == Digits(1) + "0";
      assert Digits(100) == Digits(10) + "0";
    }
    assert JsString(0) == "0";
    FormatTimeText(6000000, 100, 0, "100", "00");
  }

  /**
    A negative input (a position reported past the duration) is rendered with JavaScript's
    signed floor and remainder: 59.5 s past the end reads "-1:-60".
  */
  lemma FormatTimeNegative()
    ensures FormatTime(-59500) == "-1:-60"
    ensures FormatTime(-500) == "-1:-1"
  {
    assert -59500 / 60000 == -1 && TruncRem(-59500, 60000) == -59500 && -59500 / 1000 == -60;
    assert FormatTime(-59500) == Label(-1, -60);
    assert JsString(-60) == "-60" by { assert Digits(60) == Digits(6) + "0"; }
    assert JsString(-1) == "-1";
    FormatTimeText(-59500, -1, -60, "-1", "-60");
    assert -500 / 60000 == -1 && TruncRem(-500, 60000) == -500 && -500 / 1000 == -1;
    assert FormatTime(-500) == Label(-1, -1);
    FormatTimeText(-500, -1, -1, "-1", "-1");
  }
}

=== FILE: wrappers.dfy ===
/** The optional value used for the screen's nullable references and for parsers that may fail. */
module Wrappers {

  datatype Option<+T> = None | Some(value: T)
}
